=== FILE: README.md ===
# Background-job status store (EBackJob), modelled in Dafny

This project models the background-job component of a Yii web application. A
caller starts a job (an action that runs in a separate request) and gets a job id
back at once. It then polls the job's status until the job completes, fails or
times out. Each job is a status array with the keys progress, status, start time,
update time, end time, request and status text. It lives in two backends that can
each be switched on or off: a cache (one entry per job plus an id counter) and a
database table (one row per job).

The model is functional. A `Store` value holds both backends. Every operation is a
pure function from a `Config` (the component's properties), a `Store` and an `Env`
(the clock and the output buffer) to a new `Store`. Operations that can end the
request return an `Outcome`, which is `Done(store, value)` or `Ended(store)`.

- `JobRecords` (records.dfy): the status array as a record with one optional field
  per key, the status codes (Started 0, InProgress 1, Completed 2, Failed 3), and
  `Merge`, PHP's `array_merge`. It is proved equal to right-biased map union on the
  array view of a record.
- `StatusStore` (store.dfy): reading a status (cache first, then the table, then
  repopulating the cache, defaults underneath, lazy timeout). Writing a status
  (`Update`, `Finish`, `Fail`) through to each enabled backend.
- `StoreProperties` (store_properties.dfy): what reads and writes guarantee.
- `Dispatcher` (dispatch.dfy): id allocation (the table's insert id, or else the
  cache counter), creating the first record, normalising the action, and
  `RunAction`. The transport and the serialiser are function parameters.
- `DispatchProperties` (dispatch_properties.dfy): the first record, the two
  transport outcomes, id uniqueness over a run of starts, and an end-to-end job.
- `LifecycleHooks` (hooks.dfy): recognising the job's own request, the start and
  end hooks, and how `var_export` quotes the error message.

In these places the code does something a caller might not expect, and the model follows the code:

- `update` has no terminal guard. It writes InProgress unless the caller gives a
  status, so it turns a Completed or Failed job back into InProgress
  (`UpdateOverwritesTerminal`). Only `finish` checks the status first.
- `fail` ends the request (EBackJob.php:270). So when a read finds a stale job, it
  writes the failure and ends the request. The re-read at EBackJob.php:197 never
  runs. `GetStatus` returns `Ended` there. `NoSecondTimeout` shows that the next
  read finds the Failed record and does not fail it again.
- A transport error at start goes through `finish`, not `fail`, with a Failed
  status override (EBackJob.php:405-410). The job therefore also gets progress 100
  and an end time, and only if its record does not already read as terminal.
- The cache counter is a plain read-modify-write (EBackJob.php:357-360), not an
  atomic increment. The model is sequential.
- A job that reports no progress for longer than the timeout and then ends cleanly
  is recorded as Failed with the timeout text, not Completed. The end hook's
  `finish` reads the status first (EBackJob.php:244), and that read fails the
  stale job and ends the request (EBackJob.php:193-196). See
  `CleanEndOfStaleJobFails`.

## Model

| member | source | states |
|---|---|---|
| JobRecords.Merge | EBackJob.php:185-190 | merging nothing over an array leaves it as it was, merging an array over nothing gives that array, and the result is empty iff both arrays are |
| JobRecords.MergeGet | EBackJob.php:185-190 | key by key, a key present in the right-hand array wins, and every other key keeps the left-hand value or stays absent |
| JobRecords.MergeIsArrayMerge | EBackJob.php:318 | the merged record's array is the right-biased union of the two arrays, which is PHP `array_merge` on string keys |
| JobRecords.MergeAbsorbs | EBackJob.php:318 | merging the same update twice leaves the same array as merging it once |
| JobRecords.ArrayRoundTrip | EBackJob.php:369-378 | every record's array is well typed (integers for progress, status and times; text for request and status text), and reading it back gives the record |
| JobRecords.RecordRoundTrip | EBackJob.php:369-378 | every well-typed array over the job columns is the array of the record read from it |
| StatusStore.TimedOut | EBackJob.php:193-195 | a status has timed out iff it is not terminal and its age (now minus its update time) exceeds the timeout; a terminal status never times out; under a non-negative timeout a status without an update time never does |
| StatusStore.ReadStored | EBackJob.php:167-179 | a non-empty cache entry answers without touching the store; on a miss, a table row answers and is copied into the cache iff the cache is on; otherwise nothing is found and nothing changes |
| StatusStore.GetStatus | EBackJob.php:165-201 | id 0 reads nothing and returns exactly the defaults; a returned status always has the default keys; a returned non-terminal status of a real id is never stale; only a real id can end the request; no row is created and the id positions do not move |
| StatusStore.SetCacheStatus | EBackJob.php:314-319 | the entry gets every key of the update, keeps every key the update lacks, and is created if missing; no other entry, the counter or the table changes |
| StatusStore.SetDbStatus | EBackJob.php:326-328 | an existing row gets the update's keys and keeps the rest; no row is created; nothing else changes |
| StatusStore.SetStatus | EBackJob.php:278-283 | the cache is written iff it is on and the table iff it is on; a disabled backend is left unchanged; the id positions never move |
| StatusStore.Update | EBackJob.php:218-234 | without an id argument or a current job nothing changes; otherwise only the resolved job's entry and row can change, and no row is created |
| StatusStore.Finish | EBackJob.php:241-254 | finish ends the request exactly when its read of the job does; no row is created and the id positions do not move |
| StatusStore.Fail | EBackJob.php:261-271 | fail always ends the request |
| StoreProperties.StoredFieldsWin | EBackJob.php:184-190 | in a returned status, every key of the stored array has its stored value and every missing key has its default |
| StoreProperties.TimedOutOverDefaults | EBackJob.php:184-195 | the staleness test on the defaulted record equals the test on the stored array, with a missing status reading as Started and a missing update time as now |
| StoreProperties.TimeoutIffStale | EBackJob.php:192-198 | a read of a real id ends the request iff the stored job's status is below Completed and its update time plus the timeout is before now |
| StoreProperties.TerminalNeverTimesOut | EBackJob.php:193-194 | a job stored as Completed or Failed is never failed by a read |
| StoreProperties.CacheHit | EBackJob.php:168-170 | a non-empty cache entry that has not timed out gives the entry over the defaults, writes nothing, and gives the same answer whatever the table holds |
| StoreProperties.TableFallback | EBackJob.php:170-177 | on a cache miss a table row that has not timed out gives the answer, and the cache holds that row afterwards iff the cache is on |
| StoreProperties.UnknownJobReadsAsDefaults | EBackJob.php:180-190 | a job no backend knows reads as progress 0 and Started, with nothing written, for a non-negative timeout |
| StoreProperties.TimeoutWritesFailure | EBackJob.php:192-198 | the timeout failure writes Failed, the timeout text, and now as end and update time, to the cache entry and to an existing row |
| StoreProperties.NoSecondTimeout | EBackJob.php:193-197 | after a timeout failure has reached a backend, every later read returns the Failed record with the timeout text, writes nothing, and does not fail it again |
| StoreProperties.UpdateWrites | EBackJob.php:222-232 | the written status, update time and status text are the caller's or else InProgress, now and the buffered output; progress, start time, end time and request are the caller's or else the stored ones (absent for a new cache entry); this holds for the cache entry and for an existing row |
| StoreProperties.BareProgressIsProgressArray | EBackJob.php:223-225 | a bare number n is the same update as the array {progress: n} |
| StoreProperties.UpdateOverwritesTerminal | EBackJob.php:226-232 | a progress update turns a Completed or Failed cache entry back into InProgress |
| StoreProperties.FinishWrites | EBackJob.php:244-253 | finishing a job whose read neither times out nor finds it terminal writes the caller's status, progress, end and update time, or else Completed, 100, now and now, to the cache entry and to an existing row |
| StoreProperties.FinishSkipsTerminal | EBackJob.php:244-245 | finishing a job that reads as terminal writes nothing beyond what the read did |
| StoreProperties.FinishIdempotent | EBackJob.php:241-254 | once a finish has returned, any later finish of the same job, with any fields at any time, returns and leaves the store unchanged, unless the first one set a non-terminal status |
| StoreProperties.FailWrites | EBackJob.php:261-271 | fail writes the caller's status and end time or else Failed and now, to the cache entry and to an existing row, whatever the job's status was, and ends the request |
| StoreProperties.FailTwiceIsFailOnce | EBackJob.php:261-269 | a second identical failure leaves both backends as the first left them |
| StoreProperties.FinishAfterFail | EBackJob.php:241-271 | after a failure that reached a backend, with no status override or a terminal one, a finish returns and changes nothing |
| Dispatcher.NewCacheId | EBackJob.php:355-361 | the new id is one more than the counter (a missing counter counting as 0), and the counter then equals the id returned |
| Dispatcher.CreateStatus | EBackJob.php:335-349 | an id is given iff a backend is on; the cache counter moves only in a cache-only store; it is the table's next insert id when the table is on, else the next cache id; each enabled backend stores the defaults under the given fields at that id; nothing else changes; when every row id (for the table) or every cache id (for a cache-only store) was already given out, the new id names no existing job, and that property still holds afterwards |
| Dispatcher.Normalise | EBackJob.php:390-398 | a route string becomes the request [route] with no parameters; an array gives index 0 as the route, keeps every other key as a parameter and is stored as given |
| Dispatcher.DispatchCall | EBackJob.php:401-403 | the call carries the new id under `_e_back_job_id`, the route (the string itself, or the array's index 0, absent when it has none), the other parameters unchanged, and the run-as-current-user flag |
| Dispatcher.RunAction | EBackJob.php:389-412 | with a backend on, a start that returns gives the next id, and the id position then stands at that id; the cache counter moves by one in a cache-only store and not otherwise |
| DispatchProperties.InitialRecordIsStarted | EBackJob.php:337-346 | the first record is Started with progress 0, start and update time now, and the serialised request |
| DispatchProperties.RouteStoredAsArray | EBackJob.php:396-400 | a route string is stored as the serialised one-element array holding it |
| DispatchProperties.RunActionDelivered | EBackJob.php:400-411 | with a backend on, on a delivered call, the start returns the new id and every enabled backend holds the first record at it |
| DispatchProperties.RunActionTransportError | EBackJob.php:403-411 | with a backend on and a non-negative timeout, on a transport error, the start still returns the new id, and every enabled backend holds the first record with Failed, the error text, progress 100 and end time now |
| DispatchProperties.StartJobs | EBackJob.php:339-360 | with a backend on and a non-negative timeout, a run of n starts returns the ids after the last one handed out, in order, so they are strictly increasing and distinct |
| DispatchProperties.EmptyStoreIdsIssued | EBackJob.php:339-360 | a store with no rows, no cache entries and no counter holds only ids that were given out |
| DispatchProperties.GetStatusKeepsIdsIssued | EBackJob.php:165-201 | a read keeps every row id given out; in a cache-only store it keeps every cache id given out when it reads an id the counter gave out or the timeout is not negative |
| DispatchProperties.UpdateKeepsIdsIssued | EBackJob.php:218-234 | an update keeps every row id given out, and keeps every cache id given out when the job it writes has an id the counter gave out |
| DispatchProperties.FinishKeepsIdsIssued | EBackJob.php:241-254 | a finish keeps every row id given out, and in a cache-only store every cache id given out when its job's id was given out |
| DispatchProperties.FailKeepsIdsIssued | EBackJob.php:261-271 | a failure keeps every row id given out, and every cache id given out when its job's id was given out |
| DispatchProperties.RunActionStartsNewJob | EBackJob.php:335-361 | when the backend that hands out ids holds only ids it gave out, a start stores its job under an id no job had before, and the backend still holds only ids it gave out |
| DispatchProperties.EndToEnd | EBackJob.php:218-254 | start returns 7 and reads Started at 0; update(50) reads InProgress at 50; finish reads Completed at 100 with an end time; a second finish changes nothing |
| LifecycleHooks.IsInternalRequest | EBackJob.php:460-466 | an internal request carries the job id parameter; a request carrying it is internal when the client is 127.0.0.1 or ::1, or when the remote address equals the server's; an internal request from another remote address has a loopback client |
| LifecycleHooks.CurrentJob | EBackJob.php:120-122 | a request runs a job iff it is internal, and then the job is its id parameter |
| LifecycleHooks.ForgedIdIgnored | EBackJob.php:460-466 | a request without the job id parameter, or from a non-loopback client whose remote address differs from the server's, is not internal and runs no job |
| LifecycleHooks.LocalJobRequestIsInternal | EBackJob.php:460-466 | a request with the job id parameter from 127.0.0.1, from ::1 or from the server's own address is internal and runs that job |
| LifecycleHooks.StartRequest | EBackJob.php:133-140 | the start hook leaves the current job's cache entry (when the cache is on) and its existing table row (when the table is on) at progress 0, InProgress, updated now; without a current job it changes nothing |
| LifecycleHooks.EndRequest | EBackJob.php:146-157 | with an error the end hook always ends the request; without one it ends it exactly when the finish's read does |
| LifecycleHooks.EndRequestOutcome | EBackJob.php:146-157 | with an error the job is Failed with the output followed by the exported message; without one, a job whose read neither times out nor finds it terminal is Completed at 100 with the output; each holds for the cache entry when the cache is on and for the job's row when the table has one |
| LifecycleHooks.CleanEndOfStaleJobFails | EBackJob.php:146-157 | a clean end of a job whose status has timed out ends the request with the job Failed and the timeout text in each enabled backend that holds it, not Completed, because the finish reads first (lines 244 and 193-196) |
| LifecycleHooks.Escape | EBackJob.php:150 | the quoted body is at least as long as the message and at most twice as long, and a message with no backslash or quote is its own body |
| LifecycleHooks.Export | EBackJob.php:150 | the exported message is a literal that starts and ends with a single quote |
| LifecycleHooks.EscapeRoundTrip | EBackJob.php:150 | the quoted body of the exported message reads back as the message |
| LifecycleHooks.EscapedQuotesArePrefixed | EBackJob.php:150 | every quote inside the exported body has a backslash before it |

## Left out

- The socket transport (EBackJob.php:421-454): building the URL and the request line, forwarding cookies, opening and closing the connection. It is a function parameter returning `Delivered` or `TransportError(message)`.
- `json_encode` of the request (EBackJob.php:400): a function parameter.
- Table creation and the schema check in `init`, and the lookup of the database and cache components (EBackJob.php:115-117, 289-307, 366-381): framework plumbing.
- Output buffering, `ignore_user_abort` and disabling the web log route (EBackJob.php:134-139, 147): the buffer's contents are the `output` of `Env` and the `content` argument of `EndRequest`.
- Date formatting and parsing (`date('Y-m-d h:i:s')`, `strtotime`): time is abstract integer seconds. The 12-hour clock of that format is not modelled.
- The debug dump `d($status)` (EBackJob.php:338).
- Concurrency: the cache counter's read-modify-write is modelled sequentially, so races between concurrent starts are not modelled.
- The hooks re-entering on `Yii::app()->end()`: when `fail` ends a job's own request from inside its action, the framework then runs the end hook once. `FinishAfterFail` states what that finish does, but the re-entry itself is not modelled.
- Cache keys are the prefix followed by the job id or by "maxid". The model keeps the job entries and the counter in separate fields. So it does not model foreign keys under the same prefix, or eviction by the cache.
- NULL columns of a table row read as absent keys. The `id` column that `select *` returns is not a record field; it is the key the row is stored under. Keys outside the job table's columns, and values of the wrong type, are not modelled.
- The table's insert id is its auto-increment position plus one. A failed insert (no id from the table while the table is on) is not modelled.
- PHP array keys: a numeric string key such as "0" is the integer key 0 in PHP. The model keeps `Index` and `Name` keys apart, so an action array must give its route under `Index(0)`; numeric-string keys are taken to be written as integer keys.
- Request parameters are integers or strings. A job id of 0 stands for PHP's false, so a start with neither backend on passes 0 rather than false as the id parameter.
- Dispatcher.CreateStatus: the new id is fresh only while the backend that hands out ids holds only ids it gave out. An `update`, `finish` or `fail` of an id the cache counter never gave out creates a cache entry above the counter, so a later cache-only start can overwrite it; `UpdateKeepsIdsIssued` and its siblings state which writes keep the property. The table's auto-increment is kept by every write, because no write other than the insert creates a row.
- LifecycleHooks.EscapeRoundTrip: covers backslash and quote only; `var_export`'s special form for NUL bytes is not modelled.
- StatusStore.GetStatus: does not model the re-read at EBackJob.php:197, because the preceding `fail` ends the request.

=== FILE: dispatch.dfy ===
/** Starting a background job: allocating its id, storing its first record, and
    handing the request to the transport. EBackJob.php:330-412.

    The transport (an HTTP request over a socket in EBackJob) is a parameter: a
    function from the call it is given to `Delivered` or `TransportError`. So is
    the serialiser EBackJob uses for the stored request. */
module Dispatcher {
  import opened Wrappers
  import opened JobRecords
  import opened StatusStore

  /** PHP array keys and scalar values, for the request and its parameters. */
  datatype Key = Index(n: int) | Name(name: string)
  datatype Scalar = Text(text: string) | Number(n: int)
  type PhpArray = map<Key, Scalar>

  /** The name of the parameter that carries the job id to the job process. */
  const JobIdParam: Key := Name("_e_back_job_id")

  /** What a caller starts: a route string, or an array holding the route at index 0
      and the parameters under every other key. */
  datatype Action = Route(route: string) | RouteWithParams(items: PhpArray)

  /** The call handed to the transport. The route is absent when an array action
      has nothing at index 0. */
  datatype Call = Call(route: Option<Scalar>, params: PhpArray, asCurrentUser: bool)

  datatype TransportResult = Delivered | TransportError(message: string)

  // ---------------------------------------------------------------------------
  // Ids

  /** The value of the cache counter, a missing counter counting as 0. */
  function CounterValue(s: Store): nat {
    s.maxId.GetOr(0)
  }

  /** An id handed out, with the store it was handed out from. */
  datatype Allocation = Allocation(store: Store, id: JobId)

  /** The next id from the cache counter: one more than the counter, which then
      holds the id it gave out. */
  function NewCacheId(s: Store): (r: Allocation)
    ensures r.id == CounterValue(s) + 1
    ensures r.store.maxId == Some(r.id) && CounterValue(r.store) == r.id
    ensures r.store.cache == s.cache && r.store.db == s.db && r.store.lastInsertId == s.lastInsertId
  {
    var next := CounterValue(s) + 1;
    Allocation(s.(maxId := Some(next)), next)
  }

  /** Every table row has an id the auto-increment has already given out. */
  predicate RowIdsIssued(s: Store) {
    forall k :: k in s.db ==> k <= s.lastInsertId
  }

  /** Every cache entry has an id the cache counter has already given out. */
  predicate CacheIdsIssued(s: Store) {
    forall k :: k in s.cache ==> k <= CounterValue(s)
  }

  /** The last id handed out, from the table's auto-increment when the table is on
      and from the cache counter otherwise. */
  function IdBound(c: Config, s: Store): nat {
    if c.useDb then s.lastInsertId else CounterValue(s)
  }

  /** Stores a new job record (the defaults of an id-less read under `fields`) and
      returns its id: the table's insert id when the table is on; failing that the
      next cache id when the cache is on; with neither backend, no id. With the
      cache on, the record is also put in the cache under the id. */
  function CreateStatus(c: Config, s: Store, env: Env, fields: JobRecord): (r: Allocation)
    ensures (c.useDb || c.useCache) <==> r.id != NoJob
    ensures (c.useDb || c.useCache) ==> r.id == IdBound(c, s) + 1 && IdBound(c, r.store) == r.id
    ensures c.useDb ==> r.id in r.store.db && r.store.db[r.id] == Merge(Defaults(env.now), fields)
    ensures c.useCache ==> r.id in r.store.cache && r.store.cache[r.id] == Merge(Defaults(env.now), fields)
    ensures !c.useDb ==> r.store.db == s.db && r.store.lastInsertId == s.lastInsertId
    ensures !c.useCache ==> r.store.cache == s.cache
    ensures c.useDb ==> r.store.maxId == s.maxId
    ensures !c.useCache ==> r.store.maxId == s.maxId
    ensures forall k :: k in s.cache && k != r.id ==> k in r.store.cache && r.store.cache[k] == s.cache[k]
    ensures forall k :: k in s.db && k != r.id ==> k in r.store.db && r.store.db[k] == s.db[k]
    // The new id names no job that already exists, as long as the ids in the
    // backend it came from were all given out by that backend.
    ensures c.useDb && RowIdsIssued(s) ==> r.id !in s.db
    ensures !c.useDb && c.useCache && CacheIdsIssued(s) ==> r.id !in s.cache
    ensures RowIdsIssued(s) ==> RowIdsIssued(r.store)
    ensures !c.useDb && CacheIdsIssued(s) ==> CacheIdsIssued(r.store)
  {
    var status := Merge(GetStatus(c, s, NoJob, env).value, fields);
    var inserted :=
      if c.useDb then
        var next := s.lastInsertId + 1;
        Allocation(s.(db := s.db[next := status], lastInsertId := next), next)
      else Allocation(s, NoJob);
    if c.useCache then
      var cached := if inserted.id == NoJob then NewCacheId(inserted.store) else inserted;
      Allocation(cached.store.(cache := cached.store.cache[cached.id := status]), cached.id)
    else inserted
  }

  // ---------------------------------------------------------------------------
  // Dispatch

  /** An action taken apart: the route (absent when an array action has nothing at
      index 0), the parameters, and the array that is stored as the request. */
  datatype Normalised = Normalised(route: Option<Scalar>, params: PhpArray, request: PhpArray)

  /** A route string becomes the one-element array [route] with no parameters; an
      array gives its index 0 as the route and keeps every other key as a parameter. */
  function Normalise(a: Action): (r: Normalised)
    ensures a.Route? ==>
              r.route == Some(Text(a.route)) && r.params == map[] && r.request == map[Index(0) := Text(a.route)]
    ensures a.RouteWithParams? ==>
              && r.request == a.items
              && (Index(0) in a.items <==> r.route.Some?)
              && (Index(0) in a.items ==> r.route == Some(a.items[Index(0)]))
              && Index(0) !in r.params
              && (forall k :: k != Index(0) ==> (k in r.params <==> k in a.items))
              && (forall k :: k in r.params ==> k in a.items && r.params[k] == a.items[k])
  {
    match a
    case Route(route) => Normalised(Some(Text(route)), map[], map[Index(0) := Text(route)])
    case RouteWithParams(items) =>
      Normalised(if Index(0) in items then Some(items[Index(0)]) else None, items - {Index(0)}, items)
  }

  /** The call for job `id`: the normalised route, with the id added to the
      parameters (replacing any parameter of that name). */
  function DispatchCall(a: Action, id: JobId, asCurrentUser: bool): (call: Call)
    ensures call.asCurrentUser == asCurrentUser
    ensures JobIdParam in call.params && call.params[JobIdParam] == Number(id)
    ensures a.Route? ==> call.route == Some(Text(a.route)) && call.params.Keys == {JobIdParam}
    ensures a.RouteWithParams? ==>
              call.route == (if Index(0) in a.items then Some(a.items[Index(0)]) else None)
    ensures a.RouteWithParams? ==>
              && Index(0) !in call.params
              && forall k :: k != Index(0) && k != JobIdParam ==>
                   (k in call.params <==> k in a.items) && (k in call.params ==> call.params[k] == a.items[k])
  {
    var parts := Normalise(a);
    Call(parts.route, parts.params[JobIdParam := Number(id)], asCurrentUser)
  }

  /** The fields a transport failure finishes the job with. */
  function TransportFailure(message: string): JobRecord {
    Empty.(status := Some(Failed), statusText := Some(message))
  }

  /** Starts a job: stores its record with the serialised request, hands the call to
      the transport and returns the new id. If the transport fails, the job is
      finished with status Failed and the transport's message as status text. */
  function RunAction(c: Config, s: Store, env: Env, a: Action, asCurrentUser: bool,
                     serialise: PhpArray -> string, transport: Call -> TransportResult): (o: Outcome<JobId>)
    ensures (c.useDb || c.useCache) && o.Done? ==> o.value == IdBound(c, s) + 1 && IdBound(c, o.store) == o.value
    ensures o.store.maxId == s.maxId || o.store.maxId == Some(CounterValue(s) + 1)
    ensures (c.useDb || !c.useCache) ==> o.store.maxId == s.maxId
    ensures !c.useDb && c.useCache ==> o.store.maxId == Some(CounterValue(s) + 1)
  {
    var created := CreateStatus(c, s, env, Empty.(request := Some(serialise(Normalise(a).request))));
    var id := created.id;
    match transport(DispatchCall(a, id, asCurrentUser))
    case Delivered => Done(created.store, id)
    case TransportError(message) =>
      match Finish(c, created.store, env, TransportFailure(message), id)
      case Ended(s2) => Ended(s2)
      case Done(s2, _) => Done(s2, id)
  }
}

=== FILE: dispatch_properties.dfy ===
/** What starting a job guarantees: its id, its first record, and the failure record
    a transport error leaves behind. */
module DispatchProperties {
  import opened Wrappers
  import opened JobRecords
  import opened StatusStore
  import opened StoreProperties
  import opened Dispatcher

  /** The record `RunAction` first stores for an action. */
  function InitialRecord(a: Action, env: Env, serialise: PhpArray -> string): JobRecord {
    Merge(Defaults(env.now), Empty.(request := Some(serialise(Normalise(a).request))))
  }

  /** With a backend on, the new job's first record is a fresh Started job with
      progress 0 and the serialised request, stored in every enabled backend. */
  lemma InitialRecordIsStarted(a: Action, env: Env, serialise: PhpArray -> string)
    ensures var r := InitialRecord(a, env, serialise);
            && r.status == Some(Started) && r.progress == Some(0)
            && r.startTime == Some(env.now) && r.updatedTime == Some(env.now)
            && r.request == Some(serialise(Normalise(a).request)) && r != Empty
  {
  }

  /** A route string is stored as the one-element array holding it. */
  lemma RouteStoredAsArray(route: string, env: Env, serialise: PhpArray -> string)
    ensures InitialRecord(Route(route), env, serialise).request == Some(serialise(map[Index(0) := Text(route)]))
  {
  }

  /** When the transport takes the call, the job keeps its first record and the call
      carries the new id. */
  lemma RunActionDelivered(c: Config, s: Store, env: Env, a: Action, asCurrentUser: bool,
                           serialise: PhpArray -> string, transport: Call -> TransportResult)
    requires c.useDb || c.useCache
    requires transport(DispatchCall(a, IdBound(c, s) + 1, asCurrentUser)) == Delivered
    ensures var o := RunAction(c, s, env, a, asCurrentUser, serialise, transport);
            var id := IdBound(c, s) + 1;
            && o == Done(o.store, id)
            && (c.useCache ==> id in o.store.cache && o.store.cache[id] == InitialRecord(a, env, serialise))
            && (c.useDb ==> id in o.store.db && o.store.db[id] == InitialRecord(a, env, serialise))
  {
  }

  /** When the transport fails, the start still returns the new id (for a timeout
      that is not negative), and the job is left Failed with the transport's message,
      progress 100 and the current end time, in every enabled backend. */
  lemma RunActionTransportError(c: Config, s: Store, env: Env, a: Action, asCurrentUser: bool,
                                serialise: PhpArray -> string, transport: Call -> TransportResult)
    requires c.useDb || c.useCache
    requires c.errorTimeout >= 0
    requires transport(DispatchCall(a, IdBound(c, s) + 1, asCurrentUser)).TransportError?
    ensures var o := RunAction(c, s, env, a, asCurrentUser, serialise, transport);
            var id := IdBound(c, s) + 1;
            var message := transport(DispatchCall(a, id, asCurrentUser)).message;
            var failed := InitialRecord(a, env, serialise).(
              status := Some(Failed), statusText := Some(message), progress := Some(100), endTime := Some(env.now));
            && o == Done(o.store, id)
            && (c.useCache ==> id in o.store.cache && o.store.cache[id] == failed)
            && (c.useDb ==> id in o.store.db && o.store.db[id] == failed)
  {
    var id := IdBound(c, s) + 1;
    var created := CreateStatus(c, s, env, Empty.(request := Some(serialise(Normalise(a).request))));
    var s1 := created.store;
    assert created.id == id;
    var first := InitialRecord(a, env, serialise);
    assert Stored(c, s1, id) == first;
    TimeoutIffStale(c, s1, id, env);
    assert GetStatus(c, s1, id, env) == Done(s1, first);
  }

  /** Any run of starts gives out ids one after another. */
  method StartJobs(c: Config, s: Store, env: Env, actions: seq<Action>, asCurrentUser: bool,
                   serialise: PhpArray -> string, transport: Call -> TransportResult)
    returns (ids: seq<JobId>, s': Store)
    requires c.useDb || c.useCache
    requires c.errorTimeout >= 0
    ensures |ids| == |actions|
    ensures forall i :: 0 <= i < |ids| ==> ids[i] == IdBound(c, s) + i + 1
    ensures forall i, j :: 0 <= i < j < |ids| ==> ids[i] < ids[j]
    ensures IdBound(c, s') == IdBound(c, s) + |ids|
  {
    ids := [];
    s' := s;
    for n := 0 to |actions|
      invariant |ids| == n
      invariant forall i :: 0 <= i < n ==> ids[i] == IdBound(c, s) + i + 1
      invariant IdBound(c, s') == IdBound(c, s) + n
    {
      var o := RunAction(c, s', env, actions[n], asCurrentUser, serialise, transport);
      if transport(DispatchCall(actions[n], IdBound(c, s') + 1, asCurrentUser)).Delivered? {
        RunActionDelivered(c, s', env, actions[n], asCurrentUser, serialise, transport);
      } else {
        RunActionTransportError(c, s', env, actions[n], asCurrentUser, serialise, transport);
      }
      ids := ids + [o.value];
      s' := o.store;
    }
  }

  /** A whole job on a cache-only store whose counter stands at 6: the start returns
      id 7 and the job reads as Started at 0; the job process's progress update to 50
      reads back as InProgress at 50; its finish reads back as Completed at 100 with
      an end time; and a second finish changes nothing. */
  lemma EndToEnd(serialise: PhpArray -> string, transport: Call -> TransportResult, t0: Time, t1: Time, t2: Time)
    requires t0 <= t1 <= t2 <= t0 + 60
    requires transport(DispatchCall(Route("report/generate"), 7, true)) == Delivered
    ensures var dispatcher := Config(true, false, 60, NoJob);
            var job := Config(true, false, 60, 7);
            var s0 := Store(map[], Some(6), map[], 0);
            var started := RunAction(dispatcher, s0, Env(t0, ""), Route("report/generate"), true, serialise, transport);
            var s1 := started.store;
            var s2 := Update(job, s1, Env(t1, ""), BareProgress(50), NoJob);
            var finished := Finish(job, s2, Env(t2, "done"), Empty, NoJob);
            && started == Done(s1, 7)
            && GetStatus(dispatcher, s1, 7, Env(t0, "")).value.progress == Some(0)
            && GetStatus(dispatcher, s1, 7, Env(t0, "")).value.status == Some(Started)
            && GetStatus(dispatcher, s2, 7, Env(t1, "")).value.progress == Some(50)
            && GetStatus(dispatcher, s2, 7, Env(t1, "")).value.status == Some(InProgress)
            && finished.Done?
            && GetStatus(dispatcher, finished.store, 7, Env(t2, "")).value.progress == Some(100)
            && GetStatus(dispatcher, finished.store, 7, Env(t2, "")).value.status == Some(Completed)
            && GetStatus(dispatcher, finished.store, 7, Env(t2, "")).value.endTime == Some(t2)
            && Finish(job, finished.store, Env(t2, ""), Empty, NoJob) == Done(finished.store, ())
  {
    var dispatcher := Config(true, false, 60, NoJob);
    var job := Config(true, false, 60, 7);
    var s0 := Store(map[], Some(6), map[], 0);
    RunActionDelivered(dispatcher, s0, Env(t0, ""), Route("report/generate"), true, serialise, transport);
    var s1 := RunAction(dispatcher, s0, Env(t0, ""), Route("report/generate"), true, serialise, transport).store;
    var s2 := Update(job, s1, Env(t1, ""), BareProgress(50), NoJob);
    assert s2.cache[7].updatedTime == Some(t1);
    var finished := Finish(job, s2, Env(t2, "done"), Empty, NoJob);
    assert GetStatus(job, s2, 7, Env(t2, "done")).Done?;
    FinishIdempotent(job, s2, Env(t2, "done"), Empty, NoJob, Env(t2, ""), Empty);
  }
  // ---------------------------------------------------------------------------
  // Fresh ids

  /** A store with no jobs and no counter has given out every id it holds. */
  lemma EmptyStoreIdsIssued()
    ensures RowIdsIssued(Store(map[], None, map[], 0)) && CacheIdsIssued(Store(map[], None, map[], 0))
  {
  }

  /** A read adds no table row and no id to either counter. In a cache-only store it
      adds a cache entry only for a job it fails on a timeout, which an unknown id
      does only when the timeout is negative. */
  lemma GetStatusKeepsIdsIssued(c: Config, s: Store, id: JobId, env: Env)
    ensures RowIdsIssued(s) ==> RowIdsIssued(GetStatus(c, s, id, env).store)
    ensures !c.useDb && CacheIdsIssued(s) && (id <= CounterValue(s) || c.errorTimeout >= 0) ==>
              CacheIdsIssued(GetStatus(c, s, id, env).store)
  {
    if !c.useDb && CacheIdsIssued(s) && id > CounterValue(s) && c.errorTimeout >= 0 {
      assert id !in s.cache;
      assert ReadStored(c, s, id) == Read(None, s);
      assert !TimedOut(c, Merge(Defaults(env.now), Empty), env.now);
    }
  }

  /** An update adds no table row; it adds a cache entry only under the job it
      writes, which keeps the cache ids issued when that job's id was. */
  lemma UpdateKeepsIdsIssued(c: Config, s: Store, env: Env, arg: StatusArg, id: JobId)
    ensures RowIdsIssued(s) ==> RowIdsIssued(Update(c, s, env, arg, id))
    ensures CacheIdsIssued(s) && ResolveId(c, id) <= CounterValue(s) ==> CacheIdsIssued(Update(c, s, env, arg, id))
  {
  }

  /** Finishing a job adds no table row; in a cache-only store it keeps the cache
      ids issued when the job's id was issued. */
  lemma FinishKeepsIdsIssued(c: Config, s: Store, env: Env, over: JobRecord, id: JobId)
    ensures RowIdsIssued(s) ==> RowIdsIssued(Finish(c, s, env, over, id).store)
    ensures !c.useDb && CacheIdsIssued(s) && ResolveId(c, id) <= CounterValue(s) ==>
              CacheIdsIssued(Finish(c, s, env, over, id).store)
  {
  }

  /** Failing a job adds no table row and keeps the cache ids issued when the job's
      id was issued. */
  lemma FailKeepsIdsIssued(c: Config, s: Store, env: Env, over: JobRecord, id: JobId)
    ensures RowIdsIssued(s) ==> RowIdsIssued(Fail(c, s, env, over, id).store)
    ensures CacheIdsIssued(s) && ResolveId(c, id) <= CounterValue(s) ==> CacheIdsIssued(Fail(c, s, env, over, id).store)
  {
  }

  /** Starting a job in a store whose ids were all given out stores it under an id
      that named no job before, and leaves a store whose ids were all given out. */
  lemma RunActionStartsNewJob(c: Config, s: Store, env: Env, a: Action, asCurrentUser: bool,
                              serialise: PhpArray -> string, transport: Call -> TransportResult)
    requires c.useDb || c.useCache
    requires c.useDb ==> RowIdsIssued(s)
    requires !c.useDb ==> CacheIdsIssued(s)
    ensures var o := RunAction(c, s, env, a, asCurrentUser, serialise, transport);
            && (o.Done? && c.useDb ==> o.value !in s.db)
            && (o.Done? && !c.useDb ==> o.value !in s.cache)
            && (c.useDb ==> RowIdsIssued(o.store))
            && (!c.useDb ==> CacheIdsIssued(o.store))
  {
    var created := CreateStatus(c, s, env, Empty.(request := Some(serialise(Normalise(a).request))));
    var result := transport(DispatchCall(a, created.id, asCurrentUser));
    if result.TransportError? {
      FinishKeepsIdsIssued(c, created.store, env, TransportFailure(result.message), created.id);
    }
  }
}

=== FILE: hooks.dfy ===
/** The hooks that run inside the background request itself: recognising that a
    request is a job, marking it started, and recording how it ended.
    EBackJob.php:115-157 and 456-466. */
module LifecycleHooks {
  import opened Wrappers
  import opened JobRecords
  import opened StatusStore
  import opened StoreProperties

  /** What the hooks read from the incoming request: the job id parameter, if any,
      the client address the framework reports, and the server and remote addresses
      of the connection. */
  datatype RequestContext = RequestContext(
    jobIdParam: Option<JobId>,
    userHostAddress: string,
    serverAddr: string,
    remoteAddr: string)

  /** A request is the job process iff it carries a job id and comes from this
      machine: a loopback client, or a remote address equal to the server's. */
  predicate IsInternalRequest(ctx: RequestContext): (b: bool)
    ensures b ==> ctx.jobIdParam.Some?
    ensures ctx.jobIdParam.Some? && (ctx.userHostAddress == "127.0.0.1" || ctx.userHostAddress == "::1") ==> b
    ensures ctx.jobIdParam.Some? && ctx.serverAddr == ctx.remoteAddr ==> b
    ensures b && ctx.serverAddr != ctx.remoteAddr ==> ctx.userHostAddress in {"127.0.0.1", "::1"}
  {
    && ctx.jobIdParam.Some?
    && (|| ctx.userHostAddress == "127.0.0.1"
        || ctx.userHostAddress == "::1"
        || ctx.serverAddr == ctx.remoteAddr)
  }

  /** The job a request runs, as initialisation sets it: the id parameter of an
      internal request, and no job otherwise. */
  function CurrentJob(ctx: RequestContext): (id: JobId)
    ensures id != NoJob ==> IsInternalRequest(ctx) && ctx.jobIdParam == Some(id)
    ensures IsInternalRequest(ctx) ==> Some(id) == ctx.jobIdParam
  {
    if IsInternalRequest(ctx) then ctx.jobIdParam.value else NoJob
  }

  /** A request without a job id, or with one from a foreign client, is not the job
      process and runs no job. */
  lemma ForgedIdIgnored(ctx: RequestContext)
    requires ctx.jobIdParam.None? || (
               && ctx.userHostAddress != "127.0.0.1" && ctx.userHostAddress != "::1"
               && ctx.serverAddr != ctx.remoteAddr)
    ensures !IsInternalRequest(ctx)
    ensures CurrentJob(ctx) == NoJob
  {
  }

  /** A request with a job id from this machine is the job process and runs that job. */
  lemma LocalJobRequestIsInternal(ctx: RequestContext)
    requires ctx.jobIdParam.Some?
    requires ctx.userHostAddress == "127.0.0.1" || ctx.userHostAddress == "::1" || ctx.serverAddr == ctx.remoteAddr
    ensures IsInternalRequest(ctx)
    ensures CurrentJob(ctx) == ctx.jobIdParam.value
  {
  }

  /** The start hook: a progress update of 0 for the current job. */
  function StartRequest(c: Config, s: Store, env: Env): (s': Store)
    ensures c.currentJobId == NoJob ==> s' == s
    ensures c.currentJobId != NoJob && c.useCache ==>
              && c.currentJobId in s'.cache
              && s'.cache[c.currentJobId].progress == Some(0)
              && s'.cache[c.currentJobId].status == Some(InProgress)
              && s'.cache[c.currentJobId].updatedTime == Some(env.now)
    ensures c.currentJobId != NoJob && c.useDb && c.currentJobId in s.db ==>
              && c.currentJobId in s'.db
              && s'.db[c.currentJobId].progress == Some(0)
              && s'.db[c.currentJobId].status == Some(InProgress)
              && s'.db[c.currentJobId].updatedTime == Some(env.now)
  {
    Update(c, s, env, StatusArray(Empty.(progress := Some(0))), NoJob)
  }

  // ---------------------------------------------------------------------------
  // Exporting an error message as a PHP string literal

  /** The body of a single-quoted PHP literal: backslash and quote get a backslash. */
  function Escape(text: string): (r: string)
    ensures |text| <= |r| <= 2 * |text|
    ensures (forall i :: 0 <= i < |text| ==> text[i] != '\\' && text[i] != '\'') ==> r == text
  {
    if text == [] then []
    else if text[0] == '\\' || text[0] == '\'' then ['\\', text[0]] + Escape(text[1..])
    else [text[0]] + Escape(text[1..])
  }

  /** How `var_export` writes a string: as a single-quoted literal. */
  function Export(text: string): (r: string)
    ensures |r| >= 2 && r[0] == '\'' && r[|r| - 1] == '\''
  {
    ['\''] + Escape(text) + ['\'']
  }

  /** Reads the body of a single-quoted literal back: a backslash before a backslash
      or a quote is dropped, and any other backslash stays. */
  function Unescape(body: string): string {
    if body == [] then []
    else if body[0] == '\\' && |body| >= 2 && (body[1] == '\\' || body[1] == '\'') then [body[1]] + Unescape(body[2..])
    else [body[0]] + Unescape(body[1..])
  }

  /** The escaped body reads back as the text it came from. */
  lemma {:induction false} EscapeRoundTrip(text: string)
    ensures Unescape(Escape(text)) == text
  {
    if text != [] {
      EscapeRoundTrip(text[1..]);
      if text[0] == '\\' || text[0] == '\'' {
        assert Escape(text) == ['\\', text[0]] + Escape(text[1..]);
        assert (['\\', text[0]] + Escape(text[1..]))[2..] == Escape(text[1..]);
      } else {
        assert (['\\'] + Escape(text[1..]))[1..] == Escape(text[1..]);
        assert ([text[0]] + Escape(text[1..]))[1..] == Escape(text[1..]);
      }
    }
  }

  /** Every quote in the escaped body comes right after a backslash. */
  lemma {:induction false} EscapedQuotesArePrefixed(text: string)
    ensures forall i :: 0 <= i < |Escape(text)| && Escape(text)[i] == '\'' ==> i > 0 && Escape(text)[i - 1] == '\\'
  {
    if text != [] {
      EscapedQuotesArePrefixed(text[1..]);
      var head := if text[0] == '\\' || text[0] == '\'' then ['\\', text[0]] else [text[0]];
      assert Escape(text) == head + Escape(text[1..]);
      forall i | 0 <= i < |Escape(text)| && Escape(text)[i] == '\''
        ensures i > 0 && Escape(text)[i - 1] == '\\'
      {
        if i >= |head| {
          assert Escape(text)[i] == Escape(text[1..])[i - |head|];
          if i - |head| > 0 {
            assert Escape(text)[i - 1] == Escape(text[1..])[i - |head| - 1];
          }
        }
      }
    }
  }

  /** The end hook: with an error recorded, the job fails with the buffered output
      followed by the exported error message; without one, it finishes with the
      buffered output as its status text. */
  function EndRequest(c: Config, s: Store, env: Env, content: string, error: Option<string>): (o: Outcome<()>)
    ensures error.Some? ==> o.Ended?
    ensures error.None? ==> (o.Ended? <==> GetStatus(c, s, c.currentJobId, env).Ended?)
  {
    match error
    case Some(message) => Fail(c, s, env, Empty.(statusText := Some(content + Export(message))), NoJob)
    case None => Finish(c, s, env, Empty.(statusText := Some(content)), NoJob)
  }

  /** An error leaves the current job Failed with the output and the exported
      message; a clean end of a job whose read neither times out nor finds it
      terminal leaves it Completed at progress 100 with the output. Both hold for the
      cache entry when the cache is on and for the job's row when the table has one. */
  lemma EndRequestOutcome(c: Config, s: Store, env: Env, content: string, error: Option<string>)
    requires c.currentJobId != NoJob
    requires c.useCache || (c.useDb && c.currentJobId in s.db)
    requires error.None? ==> GetStatus(c, s, c.currentJobId, env).Done?
    requires error.None? ==> !IsTerminal(GetStatus(c, s, c.currentJobId, env).value.status.value)
    ensures var o := EndRequest(c, s, env, content, error);
            var job := c.currentJobId;
            && (error.Some? ==>
                  && o.Ended?
                  && (c.useCache ==>
                        && job in o.store.cache
                        && o.store.cache[job].status == Some(Failed)
                        && o.store.cache[job].statusText == Some(content + Export(error.value)))
                  && (c.useDb && job in s.db ==>
                        && job in o.store.db
                        && o.store.db[job].status == Some(Failed)
                        && o.store.db[job].statusText == Some(content + Export(error.value))))
            && (error.None? ==>
                  && o.Done?
                  && (c.useCache ==>
                        && job in o.store.cache
                        && o.store.cache[job].status == Some(Completed)
                        && o.store.cache[job].progress == Some(100)
                        && o.store.cache[job].statusText == Some(content))
                  && (c.useDb && job in s.db ==>
                        && job in o.store.db
                        && o.store.db[job].status == Some(Completed)
                        && o.store.db[job].progress == Some(100)
                        && o.store.db[job].statusText == Some(content)))
  {
  }

  /** A job whose status has gone stale by the time its request ends cleanly is not
      completed: the finish reads it first, and that read fails it with the timeout
      text and ends the request. */
  lemma CleanEndOfStaleJobFails(c: Config, s: Store, env: Env, content: string)
    requires c.currentJobId != NoJob
    requires c.useCache || (c.useDb && c.currentJobId in s.db)
    requires TimedOut(c, Merge(Defaults(env.now), Stored(c, s, c.currentJobId)), env.now)
    ensures var o := EndRequest(c, s, env, content, None);
            var job := c.currentJobId;
            && o.Ended?
            && (c.useCache ==>
                  && job in o.store.cache
                  && o.store.cache[job].status == Some(Failed)
                  && o.store.cache[job].statusText == Some(TimeoutText))
            && (c.useDb && job in s.db ==>
                  && job in o.store.db
                  && o.store.db[job].status == Some(Failed)
                  && o.store.db[job].statusText == Some(TimeoutText))
  {
  }
}

=== FILE: records.dfy ===
/** Job status records of the background-job component and the PHP `array_merge`
    that combines them.

    The component keeps each job's status as a PHP array whose keys are the columns
    of the job table. The model gives the array a fixed shape: one optional field per
    column, where `None` means the key is absent. `ToArray` and `FromArray` connect
    the shape back to a plain key/value map, and `MergeIsArrayMerge` shows that
    `Merge` is exactly `array_merge` (right-hand keys win) on that map. */
module JobRecords {
  import opened Wrappers

  // Status codes. They stay plain integers because the status column is an integer
  // column and callers may write any integer into it.
  const Started: int := 0
  const InProgress: int := 1
  const Completed: int := 2
  const Failed: int := 3

  /** Time as abstract seconds (EBackJob formats dates and parses them back). */
  type Time = int

  /** A job id. EBackJob passes ids as PHP values where 0, false and null all
      mean "no job"; the model uses 0 for all three. */
  type JobId = nat
  const NoJob: JobId := 0

  /** Completed and Failed (and any larger code) end a job. */
  predicate IsTerminal(status: int) {
    status >= Completed
  }

  /** One status array: `id` is the key it is stored under, not a field. */
  datatype JobRecord = JobRecord(
    progress: Option<int>,
    status: Option<int>,
    startTime: Option<Time>,
    updatedTime: Option<Time>,
    endTime: Option<Time>,
    request: Option<string>,
    statusText: Option<string>)

  /** The empty array. */
  const Empty: JobRecord := JobRecord(None, None, None, None, None, None, None)

  function Pick<T>(base: Option<T>, over: Option<T>): Option<T> {
    if over.Some? then over else base
  }

  /** `array_merge(base, over)` on status arrays: every key `over` has takes its
      value from `over`, and every other key keeps what `base` has. */
  function Merge(base: JobRecord, over: JobRecord): (r: JobRecord)
    ensures over == Empty ==> r == base
    ensures base == Empty ==> r == over
    ensures r == Empty <==> base == Empty && over == Empty
  {
    JobRecord(
      Pick(base.progress, over.progress),
      Pick(base.status, over.status),
      Pick(base.startTime, over.startTime),
      Pick(base.updatedTime, over.updatedTime),
      Pick(base.endTime, over.endTime),
      Pick(base.request, over.request),
      Pick(base.statusText, over.statusText))
  }

  // ---------------------------------------------------------------------------
  // The same record seen as a PHP array: a finite map from column to value.

  datatype Field = Progress | Status | StartTime | UpdatedTime | EndTime | Request | StatusText

  datatype Value = IntValue(i: int) | TextValue(text: string)

  const AllFields: set<Field> := {Progress, Status, StartTime, UpdatedTime, EndTime, Request, StatusText}

  /** Which kind of value each column holds. */
  predicate FieldHolds(f: Field, v: Value) {
    if f == Request || f == StatusText then v.TextValue? else v.IntValue?
  }

  /** A map that could have come from a status record. */
  predicate WellTyped(m: map<Field, Value>) {
    forall f :: f in m ==> FieldHolds(f, m[f])
  }

  function IntEntry(o: Option<int>): Option<Value> {
    if o.Some? then Some(IntValue(o.value)) else None
  }

  function TextEntry(o: Option<string>): Option<Value> {
    if o.Some? then Some(TextValue(o.value)) else None
  }

  /** The value under key `f`, if the key is present. */
  function Get(r: JobRecord, f: Field): Option<Value> {
    match f
    case Progress => IntEntry(r.progress)
    case Status => IntEntry(r.status)
    case StartTime => IntEntry(r.startTime)
    case UpdatedTime => IntEntry(r.updatedTime)
    case EndTime => IntEntry(r.endTime)
    case Request => TextEntry(r.request)
    case StatusText => TextEntry(r.statusText)
  }

  /** The PHP array a record stands for. */
  function ToArray(r: JobRecord): map<Field, Value> {
    map f | f in AllFields && Get(r, f).Some? :: Get(r, f).value
  }

  function IntAt(m: map<Field, Value>, f: Field): Option<int> {
    if f in m && m[f].IntValue? then Some(m[f].i) else None
  }

  function TextAt(m: map<Field, Value>, f: Field): Option<string> {
    if f in m && m[f].TextValue? then Some(m[f].text) else None
  }

  /** The record a well-typed PHP array stands for. */
  function FromArray(m: map<Field, Value>): JobRecord {
    JobRecord(
      IntAt(m, Progress), IntAt(m, Status), IntAt(m, StartTime), IntAt(m, UpdatedTime),
      IntAt(m, EndTime), TextAt(m, Request), TextAt(m, StatusText))
  }

  // ---------------------------------------------------------------------------
  // Merge is array_merge.

  /** Key by key: a key present in `over` takes its value from `over`, any other key
      keeps whatever `base` has (present or absent). */
  lemma MergeGet(base: JobRecord, over: JobRecord, f: Field)
    ensures Get(over, f).Some? ==> Get(Merge(base, over), f) == Get(over, f)
    ensures Get(over, f).None? ==> Get(Merge(base, over), f) == Get(base, f)
  {
  }

  /** The array of a merged record is the PHP `array_merge` of the two arrays, which
      on string keys is Dafny's right-biased map union. */
  lemma MergeIsArrayMerge(base: JobRecord, over: JobRecord)
    ensures ToArray(Merge(base, over)) == ToArray(base) + ToArray(over)
  {
    var l := ToArray(Merge(base, over));
    var r := ToArray(base) + ToArray(over);
    forall f | f in AllFields
      ensures (f in l) == (f in r) && (f in l ==> l[f] == r[f])
    {
      MergeGet(base, over, f);
    }
    assert forall f :: f in AllFields by {
      forall f ensures f in AllFields {
        match f
        case Progress =>
        case Status =>
        case StartTime =>
        case UpdatedTime =>
        case EndTime =>
        case Request =>
        case StatusText =>
      }
    }
    assert l.Keys == r.Keys;
  }

  /** Merging the same fields twice is merging them once. */
  lemma MergeAbsorbs(base: JobRecord, over: JobRecord)
    ensures Merge(Merge(base, over), over) == Merge(base, over)
  {
  }

  /** Every record's array is well typed, and reading it back gives the record. */
  lemma ArrayRoundTrip(r: JobRecord)
    ensures WellTyped(ToArray(r))
    ensures FromArray(ToArray(r)) == r
  {
  }

  /** Every well-typed array is the array of the record read from it. */
  lemma RecordRoundTrip(m: map<Field, Value>)
    requires WellTyped(m)
    ensures ToArray(FromArray(m)) == m
  {
    var r := FromArray(m);
    forall f | f in m
      ensures Get(r, f) == Some(m[f])
    {
      assert FieldHolds(f, m[f]);
    }
    forall f | f !in m
      ensures Get(r, f).None?
    {
    }
  }
}

=== FILE: store.dfy ===
/** The job status store: reading a job's status (cache first, then the job table,
    with defaults and lazy timeout detection) and writing it (update, finish, fail)
    through to every enabled backend. EBackJob.php:159-328. */
module StatusStore {
  import opened Wrappers
  import opened JobRecords

  /** The component's properties that the store logic reads. `currentJobId` is the
      job this request runs, or `NoJob` outside a background request. */
  datatype Config = Config(useCache: bool, useDb: bool, errorTimeout: int, currentJobId: JobId)

  /** The two backends. The cache holds one entry per job (key prefix . id) and the
      id counter (key prefix . "maxid", `None` while unset); the job table holds one
      row per id and an auto-increment position. */
  datatype Store = Store(
    cache: map<JobId, JobRecord>,
    maxId: Option<nat>,
    db: map<JobId, JobRecord>,
    lastInsertId: nat)

  /** The ambient inputs of one call: the clock and what the output buffer holds. */
  datatype Env = Env(now: Time, output: string)

  /** A call either returns (with a value) or ends the whole request, as `fail` does. */
  datatype Outcome<T> = Done(store: Store, value: T) | Ended(store: Store)

  /** `update` takes either a status array or a bare progress number. */
  datatype StatusArg = BareProgress(n: int) | StatusArray(fields: JobRecord)

  const TimeoutText: string := "Error: background job timeout"

  /** The defaults a read fills in for missing keys. */
  function Defaults(now: Time): JobRecord {
    JobRecord(Some(0), Some(Started), Some(now), Some(now), None, None, None)
  }

  /** The defaults `update` writes unless the caller overrides them. */
  function UpdateDefaults(env: Env): JobRecord {
    Empty.(updatedTime := Some(env.now), status := Some(InProgress), statusText := Some(env.output))
  }

  /** The defaults `finish` passes to `update` unless the caller overrides them. */
  function FinishDefaults(now: Time): JobRecord {
    Empty.(progress := Some(100), endTime := Some(now), status := Some(Completed))
  }

  /** The defaults `fail` passes to `update` unless the caller overrides them. */
  function FailDefaults(now: Time): JobRecord {
    Empty.(endTime := Some(now), status := Some(Failed))
  }

  function ArgFields(arg: StatusArg): JobRecord {
    match arg
    case BareProgress(n) => Empty.(progress := Some(n))
    case StatusArray(fields) => fields
  }

  /** A missing id argument falls back to the job this request runs. */
  function ResolveId(c: Config, id: JobId): JobId {
    if id != NoJob then id else c.currentJobId
  }

  /** A record has timed out when its status is not terminal and it was last
      updated more than `errorTimeout` seconds before `now`. */
  predicate TimedOut(c: Config, rec: JobRecord, now: Time): (b: bool)
    ensures IsTerminal(rec.status.GetOr(Started)) ==> !b
    ensures c.errorTimeout >= 0 && rec.updatedTime.None? ==> !b
    ensures rec.status.Some? && rec.updatedTime.Some? ==>
              (b <==> !IsTerminal(rec.status.value) && now - rec.updatedTime.value > c.errorTimeout)
  {
    && rec.status.GetOr(Started) < Completed
    && rec.updatedTime.GetOr(now) + c.errorTimeout < now
  }

  // ---------------------------------------------------------------------------
  // Reading

  /** The cache entry of a job, when the cache is on and the entry is not empty
      (an empty array reads as a miss). */
  function CachedEntry(c: Config, s: Store, id: JobId): Option<JobRecord> {
    if c.useCache && id in s.cache && s.cache[id] != Empty then Some(s.cache[id]) else None
  }

  datatype Read = Read(found: Option<JobRecord>, store: Store)

  /** The stored array of a job, from the cache or else from the table; a table hit
      is copied into the cache when the cache is on. */
  function ReadStored(c: Config, s: Store, id: JobId): (r: Read)
    ensures CachedEntry(c, s, id).Some? ==> r == Read(CachedEntry(c, s, id), s)
    ensures CachedEntry(c, s, id).None? && !(c.useDb && id in s.db) ==> r == Read(None, s)
    ensures CachedEntry(c, s, id).None? && c.useDb && id in s.db ==>
              && r.found == Some(s.db[id])
              && r.store.db == s.db && r.store.maxId == s.maxId && r.store.lastInsertId == s.lastInsertId
              && (c.useCache ==> r.store.cache == s.cache[id := s.db[id]])
              && (!c.useCache ==> r.store == s)
  {
    var cached := CachedEntry(c, s, id);
    if cached.Some? then Read(cached, s)
    else if c.useDb && id in s.db then
      Read(Some(s.db[id]), if c.useCache then s.(cache := s.cache[id := s.db[id]]) else s)
    else Read(None, s)
  }

  /** The status of a job: its stored array over the defaults. A job id of 0 reads
      nothing and yields the defaults. A stored job that is not terminal and has not
      been updated for more than `errorTimeout` seconds is failed, which ends the
      request. */
  function GetStatus(c: Config, s: Store, id: JobId, env: Env): (o: Outcome<JobRecord>)
    ensures id == NoJob ==> o == Done(s, Defaults(env.now))
    ensures o.Done? ==> ToArray(Defaults(env.now)).Keys <= ToArray(o.value).Keys
    ensures o.Done? ==> o.value.status.Some? && o.value.updatedTime.Some?
    ensures o.Done? && id != NoJob && !IsTerminal(o.value.status.value) ==>
              o.value.updatedTime.value + c.errorTimeout >= env.now
    ensures o.Ended? ==> id != NoJob
    ensures o.store.maxId == s.maxId && o.store.lastInsertId == s.lastInsertId && o.store.db.Keys == s.db.Keys
    ensures o.store.cache.Keys <= s.cache.Keys + {id}
  {
    var read := if id != NoJob then ReadStored(c, s, id) else Read(None, s);
    var rec := Merge(Defaults(env.now), read.found.GetOr(Empty));
    if id != NoJob && TimedOut(c, rec, env.now) then
      Ended(Fail(c, read.store, env, Empty.(statusText := Some(TimeoutText)), id).store)
    else
      Done(read.store, rec)
  }

  // ---------------------------------------------------------------------------
  // Writing

  /** The cache write: the update merged over the existing entry. */
  function SetCacheStatus(s: Store, id: JobId, upd: JobRecord): (s': Store)
    ensures id in s'.cache && s'.db == s.db && s'.maxId == s.maxId && s'.lastInsertId == s.lastInsertId
    ensures forall k :: k in s.cache && k != id ==> k in s'.cache && s'.cache[k] == s.cache[k]
    ensures s'.cache.Keys == s.cache.Keys + {id}
    ensures forall f :: Get(upd, f).Some? ==> Get(s'.cache[id], f) == Get(upd, f)
    ensures forall f :: Get(upd, f).None? ==>
              Get(s'.cache[id], f) == (if id in s.cache then Get(s.cache[id], f) else None)
  {
    var existing := if id in s.cache then s.cache[id] else Empty;
    s.(cache := s.cache[id := Merge(existing, upd)])
  }

  /** The table write: an UPDATE of the row with this id, which changes nothing when
      there is no such row. */
  function SetDbStatus(s: Store, id: JobId, upd: JobRecord): (s': Store)
    ensures s'.cache == s.cache && s'.maxId == s.maxId && s'.lastInsertId == s.lastInsertId
    ensures s'.db.Keys == s.db.Keys
    ensures forall k :: k in s.db && k != id ==> s'.db[k] == s.db[k]
    ensures id in s.db ==> forall f :: Get(s'.db[id], f) == (if Get(upd, f).Some? then Get(upd, f) else Get(s.db[id], f))
  {
    if id in s.db then s.(db := s.db[id := Merge(s.db[id], upd)]) else s
  }

  /** Write-through to every enabled backend. */
  function SetStatus(c: Config, s: Store, id: JobId, upd: JobRecord): (s': Store)
    ensures !c.useCache ==> s'.cache == s.cache
    ensures !c.useDb ==> s'.db == s.db
    ensures s'.maxId == s.maxId && s'.lastInsertId == s.lastInsertId
    ensures c.useCache ==> s'.cache == SetCacheStatus(s, id, upd).cache
    ensures c.useDb ==> s'.db == SetDbStatus(s, id, upd).db
  {
    var s1 := if c.useCache then SetCacheStatus(s, id, upd) else s;
    if c.useDb then SetDbStatus(s1, id, upd) else s1
  }

  /** Writes the caller's fields over {updated now, InProgress, buffered output} for
      the given job (or the current one); without a job it does nothing. */
  function Update(c: Config, s: Store, env: Env, arg: StatusArg, id: JobId): (s': Store)
    ensures ResolveId(c, id) == NoJob ==> s' == s
    ensures s'.maxId == s.maxId && s'.lastInsertId == s.lastInsertId && s'.db.Keys == s.db.Keys
    ensures forall k :: k in s.cache && k != ResolveId(c, id) ==> k in s'.cache && s'.cache[k] == s.cache[k]
    ensures forall k :: k in s.db && k != ResolveId(c, id) ==> s'.db[k] == s.db[k]
    ensures s'.cache.Keys <= s.cache.Keys + {ResolveId(c, id)}
  {
    var job := ResolveId(c, id);
    if job == NoJob then s
    else SetStatus(c, s, job, Merge(UpdateDefaults(env), ArgFields(arg)))
  }

  /** Marks a job Completed with progress 100, under the caller's fields, unless its
      status already reads as terminal. */
  function Finish(c: Config, s: Store, env: Env, over: JobRecord, id: JobId): (o: Outcome<()>)
    ensures GetStatus(c, s, ResolveId(c, id), env).Ended? <==> o.Ended?
    ensures o.store.maxId == s.maxId && o.store.lastInsertId == s.lastInsertId && o.store.db.Keys == s.db.Keys
    ensures o.store.cache.Keys <= s.cache.Keys + {ResolveId(c, id)}
  {
    var job := ResolveId(c, id);
    match GetStatus(c, s, job, env)
    case Ended(s1) => Ended(s1)
    case Done(s1, current) =>
      if !IsTerminal(current.status.value) then
        Done(Update(c, s1, env, StatusArray(Merge(FinishDefaults(env.now), over)), job), ())
      else
        Done(s1, ())
  }

  /** Marks a job Failed, under the caller's fields, whatever its status, and then
      ends the request. */
  function Fail(c: Config, s: Store, env: Env, over: JobRecord, id: JobId): (o: Outcome<()>)
    ensures o.Ended?
    ensures o.store.maxId == s.maxId && o.store.lastInsertId == s.lastInsertId && o.store.db.Keys == s.db.Keys
    ensures o.store.cache.Keys <= s.cache.Keys + {ResolveId(c, id)}
  {
    var job := ResolveId(c, id);
    Ended(Update(c, s, env, StatusArray(Merge(FailDefaults(env.now), over)), job))
  }
}

=== FILE: store_properties.dfy ===
/** What reading and writing a job's status guarantees, stated over the two backends. */
module StoreProperties {
  import opened Wrappers
  import opened JobRecords
  import opened StatusStore

  /** The stored array a read of `id` finds (empty when there is none). */
  function Stored(c: Config, s: Store, id: JobId): JobRecord {
    ReadStored(c, s, id).found.GetOr(Empty)
  }

  // ---------------------------------------------------------------------------
  // Reading

  /** A present key of the stored array wins over the default; a missing key reads
      as its default. */
  lemma StoredFieldsWin(c: Config, s: Store, id: JobId, env: Env, f: Field)
    requires id != NoJob
    requires GetStatus(c, s, id, env).Done?
    ensures Get(Stored(c, s, id), f).Some? ==> Get(GetStatus(c, s, id, env).value, f) == Get(Stored(c, s, id), f)
    ensures Get(Stored(c, s, id), f).None? ==> Get(GetStatus(c, s, id, env).value, f) == Get(Defaults(env.now), f)
  {
    MergeGet(Defaults(env.now), Stored(c, s, id), f);
  }

  /** The defaults fill in exactly the missing status and update time, so the
      staleness test on the merged record is the same test on the stored one. */
  lemma TimedOutOverDefaults(c: Config, r: JobRecord, now: Time)
    ensures TimedOut(c, Merge(Defaults(now), r), now) == TimedOut(c, r, now)
  {
  }

  /** A read of a job ends the request exactly when the stored job is not terminal
      and was last updated more than `errorTimeout` seconds ago. */
  lemma TimeoutIffStale(c: Config, s: Store, id: JobId, env: Env)
    requires id != NoJob
    ensures GetStatus(c, s, id, env).Ended? <==> TimedOut(c, Stored(c, s, id), env.now)
  {
    TimedOutOverDefaults(c, Stored(c, s, id), env.now);
  }

  /** A job stored as Completed or Failed is never failed by a read. */
  lemma TerminalNeverTimesOut(c: Config, s: Store, id: JobId, env: Env)
    requires Stored(c, s, id).status.Some? && IsTerminal(Stored(c, s, id).status.value)
    ensures GetStatus(c, s, id, env).Done?
  {
    if id != NoJob {
      TimeoutIffStale(c, s, id, env);
    }
  }

  /** A non-empty cache entry answers the read: the result is that entry over the
      defaults, nothing is written, and the table is not consulted (any table gives
      the same answer). */
  lemma CacheHit(c: Config, s: Store, id: JobId, env: Env, table: map<JobId, JobRecord>)
    requires id != NoJob && c.useCache && id in s.cache && s.cache[id] != Empty
    requires !TimedOut(c, s.cache[id], env.now)
    ensures GetStatus(c, s, id, env) == Done(s, Merge(Defaults(env.now), s.cache[id]))
    ensures GetStatus(c, s.(db := table), id, env) == Done(s.(db := table), Merge(Defaults(env.now), s.cache[id]))
  {
    TimedOutOverDefaults(c, s.cache[id], env.now);
  }

  /** On a cache miss a row of the table answers the read, and is copied into the
      cache when the cache is on. */
  lemma TableFallback(c: Config, s: Store, id: JobId, env: Env)
    requires id != NoJob && CachedEntry(c, s, id).None? && c.useDb && id in s.db
    requires !TimedOut(c, s.db[id], env.now)
    ensures GetStatus(c, s, id, env).Done?
    ensures GetStatus(c, s, id, env).value == Merge(Defaults(env.now), s.db[id])
    ensures c.useCache ==> GetStatus(c, s, id, env).store == s.(cache := s.cache[id := s.db[id]])
    ensures !c.useCache ==> GetStatus(c, s, id, env).store == s
  {
    TimedOutOverDefaults(c, s.db[id], env.now);
  }

  /** A job neither backend knows reads as a fresh Started job with progress 0, and
      the read writes nothing, as long as the timeout is not negative. */
  lemma UnknownJobReadsAsDefaults(c: Config, s: Store, id: JobId, env: Env)
    requires CachedEntry(c, s, id).None? && !(c.useDb && id in s.db)
    requires c.errorTimeout >= 0
    ensures GetStatus(c, s, id, env) == Done(s, Defaults(env.now))
    ensures GetStatus(c, s, id, env).value.progress == Some(0)
    ensures GetStatus(c, s, id, env).value.status == Some(Started)
  {
  }

  /** The timeout failure writes Failed, the timeout text, and the current time as
      end and update time, to the cache entry when the cache is on and to the job's
      row when the table is on and has it. */
  lemma TimeoutWritesFailure(c: Config, s: Store, id: JobId, env: Env)
    requires id != NoJob
    requires TimedOut(c, Stored(c, s, id), env.now)
    ensures var s1 := GetStatus(c, s, id, env).store;
            && GetStatus(c, s, id, env).Ended?
            && (c.useCache ==>
                  && id in s1.cache
                  && s1.cache[id].status == Some(Failed) && s1.cache[id].statusText == Some(TimeoutText)
                  && s1.cache[id].endTime == Some(env.now) && s1.cache[id].updatedTime == Some(env.now))
            && (c.useDb && id in s.db ==>
                  && s1.db[id].status == Some(Failed) && s1.db[id].statusText == Some(TimeoutText)
                  && s1.db[id].endTime == Some(env.now) && s1.db[id].updatedTime == Some(env.now))
  {
    TimeoutIffStale(c, s, id, env);
  }

  /** After a read failed a stale job, the next read (at any time) finds the Failed
      record and does not fail it again, provided the failure reached a backend. */
  lemma NoSecondTimeout(c: Config, s: Store, id: JobId, env: Env, later: Env)
    requires id != NoJob
    requires GetStatus(c, s, id, env).Ended?
    requires c.useCache || (c.useDb && id in s.db)
    ensures var s1 := GetStatus(c, s, id, env).store;
              && GetStatus(c, s1, id, later).Done?
              && GetStatus(c, s1, id, later).store == s1
              && GetStatus(c, s1, id, later).value.status == Some(Failed)
              && GetStatus(c, s1, id, later).value.statusText == Some(TimeoutText)
  {
    var s1 := GetStatus(c, s, id, env).store;
    var read := ReadStored(c, s, id);
    var upd := Merge(UpdateDefaults(env), Merge(FailDefaults(env.now), Empty.(statusText := Some(TimeoutText))));
    assert s1 == SetStatus(c, read.store, id, upd);
    if c.useCache {
      assert s1.cache[id].status == Some(Failed);
      assert CachedEntry(c, s1, id) == Some(s1.cache[id]);
    } else {
      assert id in read.store.db;
      assert s1.db[id].status == Some(Failed);
    }
    assert Stored(c, s1, id).status == Some(Failed);
    TerminalNeverTimesOut(c, s1, id, later);
  }

  // ---------------------------------------------------------------------------
  // Writing

  /** An update of a job writes, to the cache entry when the cache is on and to the
      job's row when the table is on and has it: the caller's fields, and where the
      caller gives none, the current time as update time, InProgress as status and
      the buffered output as status text; every other key keeps its stored value. */
  lemma UpdateWrites(c: Config, s: Store, env: Env, arg: StatusArg, id: JobId)
    requires ResolveId(c, id) != NoJob
    ensures var job := ResolveId(c, id);
            var a := ArgFields(arg);
            var s' := Update(c, s, env, arg, id);
            && (c.useCache ==>
                  && job in s'.cache
                  && s'.cache[job].status == (if a.status.Some? then a.status else Some(InProgress))
                  && s'.cache[job].updatedTime == (if a.updatedTime.Some? then a.updatedTime else Some(env.now))
                  && s'.cache[job].statusText == (if a.statusText.Some? then a.statusText else Some(env.output))
                  && s'.cache[job].progress == (if a.progress.Some? then a.progress
                                                else if job in s.cache then s.cache[job].progress else None)
                  && s'.cache[job].startTime == (if a.startTime.Some? then a.startTime
                                                 else if job in s.cache then s.cache[job].startTime else None)
                  && s'.cache[job].endTime == (if a.endTime.Some? then a.endTime
                                               else if job in s.cache then s.cache[job].endTime else None)
                  && s'.cache[job].request == (if a.request.Some? then a.request
                                               else if job in s.cache then s.cache[job].request else None))
            && (c.useDb && job in s.db ==>
                  && s'.db[job].status == (if a.status.Some? then a.status else Some(InProgress))
                  && s'.db[job].updatedTime == (if a.updatedTime.Some? then a.updatedTime else Some(env.now))
                  && s'.db[job].statusText == (if a.statusText.Some? then a.statusText else Some(env.output))
                  && s'.db[job].progress == (if a.progress.Some? then a.progress else s.db[job].progress)
                  && s'.db[job].startTime == (if a.startTime.Some? then a.startTime else s.db[job].startTime)
                  && s'.db[job].endTime == (if a.endTime.Some? then a.endTime else s.db[job].endTime)
                  && s'.db[job].request == (if a.request.Some? then a.request else s.db[job].request))
  {
  }

  /** A bare number n updates the progress to n. */
  lemma BareProgressIsProgressArray(c: Config, s: Store, env: Env, n: int, id: JobId)
    ensures Update(c, s, env, BareProgress(n), id) == Update(c, s, env, StatusArray(Empty.(progress := Some(n))), id)
  {
  }

  /** `update` has no terminal guard: a plain progress update turns even a Completed
      or Failed job back into InProgress. */
  lemma UpdateOverwritesTerminal(c: Config, s: Store, env: Env, n: int, id: JobId)
    requires id != NoJob && c.useCache
    requires id in s.cache && s.cache[id].status.Some? && IsTerminal(s.cache[id].status.value)
    ensures Update(c, s, env, BareProgress(n), id).cache[id].status == Some(InProgress)
  {
  }

  /** A finish that finds its job not terminal writes, to the cache entry when the
      cache is on and to the job's row when the table is on and has it: the caller's
      fields, and where the caller gives none, Completed, progress 100 and the
      current time as end and update time. */
  lemma FinishWrites(c: Config, s: Store, env: Env, over: JobRecord, id: JobId)
    requires ResolveId(c, id) != NoJob
    requires GetStatus(c, s, ResolveId(c, id), env).Done?
    requires !IsTerminal(GetStatus(c, s, ResolveId(c, id), env).value.status.value)
    ensures var job := ResolveId(c, id);
            var o := Finish(c, s, env, over, id);
            && o.Done?
            && (c.useCache ==>
                  && job in o.store.cache
                  && o.store.cache[job].status == (if over.status.Some? then over.status else Some(Completed))
                  && o.store.cache[job].progress == (if over.progress.Some? then over.progress else Some(100))
                  && o.store.cache[job].endTime == (if over.endTime.Some? then over.endTime else Some(env.now))
                  && o.store.cache[job].updatedTime == (if over.updatedTime.Some? then over.updatedTime else Some(env.now)))
            && (c.useDb && job in s.db ==>
                  && o.store.db[job].status == (if over.status.Some? then over.status else Some(Completed))
                  && o.store.db[job].progress == (if over.progress.Some? then over.progress else Some(100))
                  && o.store.db[job].endTime == (if over.endTime.Some? then over.endTime else Some(env.now))
                  && o.store.db[job].updatedTime == (if over.updatedTime.Some? then over.updatedTime else Some(env.now)))
  {
  }

  /** A finish that finds its job terminal writes nothing: the store is what the
      read left behind. */
  lemma FinishSkipsTerminal(c: Config, s: Store, env: Env, over: JobRecord, id: JobId)
    requires GetStatus(c, s, ResolveId(c, id), env).Done?
    requires IsTerminal(GetStatus(c, s, ResolveId(c, id), env).value.status.value)
    ensures Finish(c, s, env, over, id) == Done(GetStatus(c, s, ResolveId(c, id), env).store, ())
  {
  }

  /** Finish is idempotent: once a finish has returned, another finish of the same
      job (at any later time, with any fields) changes nothing, provided the first
      did not override the status with a non-terminal one. */
  lemma {:induction false} FinishIdempotent(c: Config, s: Store, env: Env, over: JobRecord, id: JobId,
                                           later: Env, over2: JobRecord)
    requires over.status.None? || IsTerminal(over.status.value)
    requires Finish(c, s, env, over, id).Done?
    ensures var s1 := Finish(c, s, env, over, id).store;
            Finish(c, s1, later, over2, id) == Done(s1, ())
  {
    var job := ResolveId(c, id);
    var s1 := Finish(c, s, env, over, id).store;
    var read := GetStatus(c, s, job, env);
    if job == NoJob {
      assert s1 == s;
      return;
    }
    var st := ReadStored(c, s, job);
    TimeoutIffStale(c, s, job, env);
    if IsTerminal(read.value.status.value) {
      assert s1 == st.store;
      assert Stored(c, s1, job) == Stored(c, s, job);
      TerminalNeverTimesOut(c, s1, job, later);
    } else {
      var upd := Merge(UpdateDefaults(env), Merge(FinishDefaults(env.now), over));
      assert s1 == SetStatus(c, st.store, job, upd);
      assert upd.status.Some? && IsTerminal(upd.status.value);
      if c.useCache {
        assert CachedEntry(c, s1, job) == Some(s1.cache[job]);
        TerminalNeverTimesOut(c, s1, job, later);
      } else if c.useDb && job in s.db {
        TerminalNeverTimesOut(c, s1, job, later);
      } else {
        assert s1 == s;
        assert Stored(c, s1, job) == Empty;
        TimeoutIffStale(c, s1, job, later);
      }
    }
  }

  /** A failure writes Failed and the current end time under the caller's fields,
      to the cache entry when the cache is on and to the job's row when the table is
      on and has it, whatever the job's status was, and ends the request. */
  lemma FailWrites(c: Config, s: Store, env: Env, over: JobRecord, id: JobId)
    requires ResolveId(c, id) != NoJob
    ensures var job := ResolveId(c, id);
            var o := Fail(c, s, env, over, id);
            && o.Ended?
            && (c.useCache ==>
                  && job in o.store.cache
                  && o.store.cache[job].status == (if over.status.Some? then over.status else Some(Failed))
                  && o.store.cache[job].endTime == (if over.endTime.Some? then over.endTime else Some(env.now)))
            && (c.useDb && job in s.db ==>
                  && o.store.db[job].status == (if over.status.Some? then over.status else Some(Failed))
                  && o.store.db[job].endTime == (if over.endTime.Some? then over.endTime else Some(env.now)))
  {
  }

  /** Failing twice with the same fields at the same time leaves the backends as
      failing once does, so two pollers racing on one stale job agree. */
  lemma FailTwiceIsFailOnce(c: Config, s: Store, env: Env, over: JobRecord, id: JobId)
    ensures var s1 := Fail(c, s, env, over, id).store;
            Fail(c, s1, env, over, id).store == s1
  {
    var job := ResolveId(c, id);
    var upd := Merge(UpdateDefaults(env), Merge(FailDefaults(env.now), over));
    MergeAbsorbs(if job in s.cache then s.cache[job] else Empty, upd);
    if job in s.db {
      MergeAbsorbs(s.db[job], upd);
    }
  }

  /** After a failure that reached a backend, the finish run at the end of the
      request changes nothing: the job stays Failed. */
  lemma FinishAfterFail(c: Config, s: Store, env: Env, over: JobRecord, id: JobId, later: Env, over2: JobRecord)
    requires ResolveId(c, id) != NoJob
    requires over.status.None? || IsTerminal(over.status.value)
    requires c.useCache || (c.useDb && ResolveId(c, id) in s.db)
    ensures var s1 := Fail(c, s, env, over, id).store;
            Finish(c, s1, later, over2, id) == Done(s1, ())
  {
    var job := ResolveId(c, id);
    var s1 := Fail(c, s, env, over, id).store;
    var upd := Merge(UpdateDefaults(env), Merge(FailDefaults(env.now), over));
    assert s1 == SetStatus(c, s, job, upd);
    if c.useCache {
      assert CachedEntry(c, s1, job) == Some(s1.cache[job]);
    }
    assert Stored(c, s1, job).status == upd.status;
    TerminalNeverTimesOut(c, s1, job, later);
  }
}

=== FILE: wrappers.dfy ===
/** The optional-value datatype used for absent keys and absent stored entries. */
module Wrappers {

  datatype Option<+T> = None | Some(value: T) {

    /** The held value, or `default` when there is none. */
    function GetOr(default: T): T {
      match this
      case Some(v) => v
      case None => default
    }
  }
}
